=== FILE: README.md ===
# RAM plugin model

A Dafny model of the RAM plugin of the Enumivo node (`plugins/ram_plugin/ram_plugin.cpp`). The
plugin keeps a secondary, queryable record of RAM-market activity. For every applied transaction
it scans the top-level actions for `buyram`, `buyrambytes` and `sellram`. For each one it updates
a per-account snapshot of the last RAM limit seen and appends a RAM-action record to a log whose
id is the insertion rank. It serves two read-only queries: `get_actions`, a time-bounded,
paginated walk over the log, and `evaluate`, which prices an ENU/RAM swap on the bonding-curve
market after the 0.5% fee.

Modules, one per component:

- `Common` (common.dfy): `Option`, `Result` and the error kinds.
- `CInt` (cint.dfy): `int32_t` wrap-around and C++ truncating division.
- `Assets` (assets.dfy): the asset value. Its amount is bounded by 2^62 - 1 in magnitude. It has a
  symbol, a checked constructor, and addition and subtraction that require equal symbols.
- `Ledger` (ledger.dfy): the RAM-action record and the log. Ids equal positions, enforced by the
  subset type `Log`. Also the snapshot map and `calc_ram_delta`.
- `Traces` (traces.dfy): action traces as name, data fields and inline actions; a transaction
  trace as its id and its actions. Also the field reads that throw on an absent or ill-shaped
  field.
- `Interpreter` (interpreter.dfy): the three handlers and `on_applied_transaction`.
- `History` (history.dfy): `get_actions`.
- `Exchange` (exchange.dfy): `exchange_state::convert_to_exchange`, `convert_from_exchange` and
  `convert`.
- `Evaluate` (evaluate.dfy): `evaluate`.

The plugin reads some things from the chain at call time. Here they are parameters:

- the live RAM limit of each account, and the pending block's number and time (`Interpreter.Env`);
- the wall clock of `get_actions`, as `clock(k)`: "the budget is spent when checked after the
  k-th record";
- the last irreversible block number;
- the market snapshot.

A handler that throws part-way yields `Aborted(db, error)`. The state it leaves is what the source
had already written: at most the snapshot update made by `calc_ram_delta`. The failing action
leaves no record, because the record's constructor runs inside the database's `create`.

Behaviour of the source worth noting:

- `evaluate_result` declares `rammarket_base` and `rammarket_quote`
  (plugins/ram_plugin/include/enumivo/ram_plugin.hpp:67-68), but `evaluate` never sets them
  (ram_plugin.cpp:445-449). They stay default assets: zero of the core symbol, taken here to be
  `4,ENU`.
- Record ids start at 0. The sequence number 1, 2, … is only made at query time as `id + 1`.
- The time-limit flag is set whenever the budget check fails after a record has been gathered.
  That includes the last record of the range, so the flag does not always mean the walk stopped
  early.
- Every handler reads the live limit through `calc_ram_delta` (ram_plugin.cpp:87), which runs
  after the whole transaction has executed. When one transaction holds two RAM actions on the
  same account, the first record carries the account's whole change and the second carries zero
  (`Interpreter.SameAccountTwice`).
- Handlers are picked by action name alone, without checking the contract account
  (ram_plugin.cpp:230-241). Inline transfers are matched on their `to`/`from` field alone, without
  checking the token contract (ram_plugin.cpp:119, 162, 204). So a same-named action of any
  contract, or a transfer of any token to or from `enu.ram`, ends up in the log; the model does
  the same, since traces carry no contract account.
- Each record copies its action trace's `trx_id` (ram_plugin.cpp:143, 186, 223). That all actions
  of one transaction carry the same id is a property of the host's traces, not of the plugin; the
  model takes it as given, keeps the id on the transaction trace and hands it to each handler.

## Model

| member | source | states |
|---|---|---|
| `Ledger.CalcRamDelta` | plugins/ram_plugin/ram_plugin.cpp:80-103 | The delta is a non-negative distance between the live limit and the previous snapshot value; it counts an unseen account's previous value as 0; it is zero exactly when the limit did not move. Afterwards the account holds the live limit and every other account's entry is unchanged. |
| `Ledger.Append` | plugins/ram_plugin/ram_plugin.cpp:131-144 | A created record gets the next id, equal to the log length before the append; earlier records do not move. |
| `Ledger.Find` | plugins/ram_plugin/ram_plugin.cpp:376-378 | Lookup by id finds a record exactly for ids inside the log, and the record found carries that id. |
| `Traces.GetString` | plugins/ram_plugin/ram_plugin.cpp:112 | A string field read succeeds exactly when the field is present and holds a string, and returns that string; otherwise it fails naming the field. It models every `get_string()` of the handlers (lines 112, 119, 123, 132, 155, 162, 166, 175, 197, 204). |
| `Traces.GetInt` | plugins/ram_plugin/ram_plugin.cpp:138 | An integer field read succeeds exactly when the field is present and holds an integer, and returns it; otherwise it fails naming the field. It models the `as_int64()` read of `bytes` on an integer-typed field, as the system contract declares it; `as_int64`'s conversions of other value kinds are not modelled. |
| `Traces.GetQuantity` | plugins/ram_plugin/ram_plugin.cpp:121 | A quantity read succeeds exactly when the `quantity` field is present and parses as an asset, and returns that asset; otherwise it fails naming `quantity`. It models every `asset::from_string` of a transfer's quantity (lines 121, 125, 164, 168, 206). |
| `Interpreter.LastMatch` | plugins/ram_plugin/ram_plugin.cpp:117-127 | Finds the last inline action whose field names the given account: it matches, and no later one does; when there is none, no inline action matches. |
| `Interpreter.BuyCostIsLastTransfers` | plugins/ram_plugin/ram_plugin.cpp:159-171 | The buy scan throws exactly when some inline action lacks a string `to`, or a transfer to `enu.ram`/`enu.ramfee` lacks a parsable quantity. Otherwise the payment is the quantity of the last transfer to `enu.ram` and the fee that of the last transfer to `enu.ramfee`, each zero when absent. The identical loop at lines 116-128 is covered too. |
| `Interpreter.SellIncomeIsLastTransfer` | plugins/ram_plugin/ram_plugin.cpp:200-208 | The sell scan throws exactly when some inline action lacks a string `from`, or a transfer from `enu.ram` lacks a parsable quantity; otherwise the income is the quantity of the last transfer from `enu.ram`, zero when absent. |
| `Interpreter.OnBuyFacts` | plugins/ram_plugin/ram_plugin.cpp:105-189 | The shared buy handler completes exactly when every read succeeds. It then appends one record describing the action, with the requested RAM being the `bytes` field or the delta. When it throws, the log is unchanged. |
| `Interpreter.OnBuyRam` | plugins/ram_plugin/ram_plugin.cpp:148-189 | `buyram` completes exactly when receiver, inline transfers, token sum and payer are readable. It then appends one record with the next id: payer and receiver from the data, fee = last transfer to `enu.ramfee`, token = that plus the last transfer to `enu.ram`, requested = realised = delta, plus block and transaction ids. A throw appends nothing. The receiver's snapshot takes its live limit whenever the receiver is readable; an unreadable receiver aborts with nothing changed. |
| `Interpreter.OnBuyRamBytes` | plugins/ram_plugin/ram_plugin.cpp:105-146 | As `OnBuyRam`, but it also needs an integer `bytes` field, which becomes the requested RAM; the realised RAM is still the observed delta. |
| `Interpreter.OnSellRam` | plugins/ram_plugin/ram_plugin.cpp:191-226 | `sellram` completes exactly when `account` and the inline transfers are readable. It then appends one record with the next id: payer = receiver = account, token = last transfer from `enu.ram`, fee = 0.0000 ENU, requested = realised = delta. A throw appends nothing. The account's snapshot takes its live limit whenever the account is readable. |
| `Interpreter.OnAction` | plugins/ram_plugin/ram_plugin.cpp:229-242 | An action with any other name changes nothing. A recognised action appends exactly one record, carrying its name, the transaction id, its subject account as receiver and that account's delta, or throws and appends none. Its subject account's snapshot takes the live limit. |
| `Interpreter.OnAppliedTransaction` | plugins/ram_plugin/ram_plugin.cpp:228-243 | The log only grows at its end. A completed transaction appends one record per recognised action, in trace order: the k-th appended record has the k-th recognised action's name and subject account, and the transaction's id. It leaves the touched accounts' keys added to the snapshot, each holding its live limit. A throw appends strictly fewer records, still matching the recognised actions in order. |
| `Interpreter.LedgerGrowth` | plugins/ram_plugin/ram_plugin.cpp:228-243 | A transaction only appends to the log. When it completes, the log grew by exactly the number of recognised actions; when it throws, by strictly fewer. |
| `Interpreter.LedgerFollowsTrace` | plugins/ram_plugin/ram_plugin.cpp:228-243 | The appended records match a prefix of the recognised actions one to one, in order: the k-th record has the k-th action's name, its subject account (`receiver` or `account`) as receiver, and the transaction's id. |
| `Interpreter.SnapshotTracksLimits` | plugins/ram_plugin/ram_plugin.cpp:80-103 | After a completed transaction the snapshot's accounts are the old ones plus those touched. Every touched account holds its live RAM limit, and every other account keeps its value. |
| `Interpreter.SameAccountTwice` | plugins/ram_plugin/ram_plugin.cpp:85-102 | Two recognised actions of one transaction on the same account: the first record's realised RAM is the account's whole change since the snapshot, the second's is zero. |
| `CInt.Wrap32` | plugins/ram_plugin/ram_plugin.cpp:354 | The 32-bit narrowing leaves values in range unchanged and is congruent to its input modulo 2^32. |
| `CInt.TruncDiv` | plugins/ram_plugin/ram_plugin.cpp:436 | C++ division by a positive divisor: the quotient times the divisor lies within one divisor of the dividend, between it and zero. |
| `Assets.MakeAsset` | plugins/ram_plugin/ram_plugin.cpp:292-297 | Constructing an asset succeeds exactly for amounts within ±(2^62 − 1) and keeps amount and symbol; otherwise it fails with an out-of-range error. |
| `Assets.Add` | plugins/ram_plugin/ram_plugin.cpp:128 | The sum exists exactly when the symbols agree and the amounts' sum is within ±(2^62 − 1); it then has that amount and symbol; a symbol clash is reported as such. |
| `Assets.Sub` | plugins/ram_plugin/ram_plugin.cpp:437 | The difference exists exactly when the symbols agree and the amounts' difference is within ±(2^62 − 1); it then has that amount and symbol; a symbol clash is reported as such. |
| `History.ResolveRange` | plugins/ram_plugin/ram_plugin.cpp:351-369 | Every resolved range has start ≤ end; any other outcome is the invalid-range error. |
| `History.ResolveRangeBySize` | plugins/ram_plugin/ram_plugin.cpp:356-369 | For a log below 2^31 records: pos ≤ −1 means the size. A forward page is [pos, min(pos+offset, size)) and is refused exactly when pos > size. A backward page is [max(pos+offset, 0), pos) and is never refused. |
| `History.Walk` | plugins/ram_plugin/ram_plugin.cpp:375-391 | The walk returns at most end − start records with consecutive ids from start, each numbered id + 1. It stops at the end, at the first missing id, or when the budget check fails. The flag is set exactly when the check failed after the last gathered record, so at least one record was gathered; no earlier check failed. Without the flag it covered [start, max(start, min(end, size))). |
| `History.GetActions` | plugins/ram_plugin/ram_plugin.cpp:346-394 | Fails exactly when the range is invalid. Otherwise it reports the last irreversible block and at most end − start records, the i-th being the record with id start + i. The time-limit flag is set exactly when the budget ran out after the last reported record, and no earlier check failed. Without the flag, the page holds every record of the range that lies in the log, from start up to min(end, size). |
| `History.LatestPage` | plugins/ram_plugin/ram_plugin.cpp:351-391 | With no parameters and an unexhausted budget, the answer is the last 20 records (all of a shorter log), oldest first, each numbered id + 1, with the flag unset. |
| `Exchange.ToExchange` | plugins/ram_plugin/ram_plugin.cpp:284-298 | Depositing into a connector issues shares of the supply's symbol in the amount the curve gives. It adds them to the supply and adds the deposit to that connector. The other connector, all symbols and the weights are untouched. A deposit of a foreign symbol fails. |
| `Exchange.FromExchange` | plugins/ram_plugin/ram_plugin.cpp:300-314 | Redeeming shares pays out the connector's asset in the amount the curve gives. It subtracts the shares from the supply and the payout from that connector. The other connector is untouched. Redeeming anything but shares fails. |
| `Exchange.Convert` | plugins/ram_plugin/ram_plugin.cpp:316-344 | A non-share input matching neither connector fails with "invalid sell". A share input whose target matches neither connector fails with "invalid conversion". A share input with a connector target is exactly one redemption through that connector, base preferred. A connector input with the share target is exactly one deposit through the input's connector. A target that is neither shares nor a connector symbol always fails. A success carries the target symbol and keeps the market's symbols and weights. Failures are only these or asset-arithmetic errors. |
| `Exchange.ConvertThroughShare` | plugins/ram_plugin/ram_plugin.cpp:316-344 | Between two connector symbols the conversion is exactly two hops, into shares through the input's connector and out through the target's, base preferred. It leaves the share supply as it was, credits the input connector with the input and debits the target connector by the output. |
| `Evaluate.Fee` | plugins/ram_plugin/ram_plugin.cpp:436 | For a non-negative amount the fee is the ceiling of amount/200 and never exceeds the amount. For a negative amount it is C++'s quotient truncated toward zero: 0 when amount + 199 ≥ 0, otherwise (amount + 199)/200 rounded up toward zero. The amount less the fee is always representable. |
| `Evaluate.Evaluate` | plugins/ram_plugin/ram_plugin.cpp:427-451 | It fails with "illegal symbol" exactly when the input is neither 4,ENU nor 0,RAM, and the result carries the other symbol. ENU→RAM charges the fee on the input and converts the rest. RAM→ENU converts everything and charges the fee on the output, so result plus fee equals the gross output. Each direction succeeds exactly when its conversion does. The market fields stay zero. |

## Left out

- The bonding-curve formulas (`std::pow` over doubles, ram_plugin.cpp:285-292 and 301-308). They enter as the uninterpreted functions of `Exchange.Curve`. So the approximate round trip and golden values of a conversion are not stated: they depend on floating-point results.
- `get_exchange_state` reads a chain table through the ABI. The market is an input of `Evaluate`; the default weights it leaves are part of that input.
- Traces.GetInt and the account reads assume the system contract's field types: `bytes` is an integer and the account fields are valid names. So the conversions done by fc's `variant::as_int64()` (a numeric string, a bool, a double or null becomes an integer) and by `account_name(...)` (a string becomes a 64-bit name, refused when longer than 13 characters) are not modelled. A non-integer `bytes` aborts the handler, and any string is kept as an account.
- ABI rendering (`to_variant_with_abi`) and `asset::from_string` are foreign library calls. Action data arrives as named fields with quantities already parsed; an unparsable quantity is any non-`Quantity` value. A failing render counts as a failing field read.
- The default-constructed asset takes the build constant `CORE_SYMBOL`, which none of the modelled files sets. It is taken to be `4,ENU` (`Assets.Zero`), as the `"0.0000 ENU"` literal (ram_plugin.cpp:217) and `SY(4,ENU)` (ram_plugin.cpp:428) suggest. This choice fixes the `token` of a `sellram` with no transfer from `enu.ram`, whether `token_sub_fee + fee` can throw when one transfer is missing, and the market fields of `evaluate`.
- The chain library's asset type (`asset.hpp`) is not part of this model. Its constructor range check and its same-symbol rule for `+`/`-` are modelled; its symbol-validity check is not.
- The compound assignments `supply += …`, `c.balance += in`, `supply -= in` and `c.balance -= …` (ram_plugin.cpp:294-295, 310-311) are assumed to check symbol and range exactly as binary `+`/`-` do, so `Exchange` models them with `Assets.Add` and `Assets.Sub`.
- Wall-clock time, `ilog`/`idump` logging, the last irreversible block and pending-block metadata become parameters or are dropped. So the 100 ms budget itself, and how far a slow walk overshoots it, are not modelled.
- What the host does after a handler throws (undo session, logging) is outside the plugin. The model stops at the `Aborted` outcome with the partial state.
- Plugin lifecycle, program options, the signal connection (ram_plugin.cpp:246-279) and the HTTP wiring of `ram_api_plugin` are left out: they contain no logic.
- RAM balances, `exp_ram` and `act_ram` are unbounded integers. The `int64_t` overflow of `new - old` and `std::abs` at the extreme limits is not modelled; real RAM limits stay far from 2^63.
- Signed overflow of `pos + offset` is undefined behaviour in C++. It is modelled as two's-complement wrap-around, which is what compiled code does.
- Replay of many transactions is not a separate operation: each transaction's outcome is the next one's input.

=== FILE: assets.dfy ===
/** Token quantities as the chain library represents them: a 64-bit amount bounded by
    2^62 - 1 in magnitude, tagged with a symbol (precision and ticker). */
module Assets {
  import opened Common

  const MaxAmount: int := 0x3FFF_FFFF_FFFF_FFFF

  type Amount = a: int | -MaxAmount <= a <= MaxAmount

  datatype Symbol = Symbol(precision: nat, code: string)

  datatype Asset = Asset(amount: Amount, sym: Symbol)

  /** `4,ENU`, the system token. */
  const Enu: Symbol := Symbol(4, "ENU")

  /** `0,RAM`, RAM bytes as the market quotes them. */
  const Ram: Symbol := Symbol(0, "RAM")

  /** A default-constructed asset: zero of the core symbol, taken to be `4,ENU`. */
  const Zero: Asset := Asset(0, Enu)

  /** The asset constructor, which refuses an amount outside the representable range. */
  function MakeAsset(amount: int, sym: Symbol): (r: Result<Asset>)
    ensures r.Ok? <==> -MaxAmount <= amount <= MaxAmount
    ensures r.Ok? ==> r.value.amount == amount && r.value.sym == sym
    ensures r.Err? ==> r.error == AmountOutOfRange
  {
    if -MaxAmount <= amount <= MaxAmount then Ok(Asset(amount, sym)) else Err(AmountOutOfRange)
  }

  /** `a + b`: only assets of one symbol add, and the sum must stay in range. */
  function Add(a: Asset, b: Asset): (r: Result<Asset>)
    ensures r.Ok? <==> a.sym == b.sym && -MaxAmount <= a.amount + b.amount <= MaxAmount
    ensures r.Ok? ==> r.value.amount == a.amount + b.amount && r.value.sym == a.sym
    ensures a.sym != b.sym ==> r == Err(SymbolMismatch)
    ensures r.Err? ==> r.error == SymbolMismatch || r.error == AmountOutOfRange
  {
    if a.sym != b.sym then Err(SymbolMismatch) else MakeAsset(a.amount + b.amount, a.sym)
  }

  /** `a - b`: only assets of one symbol subtract, and the difference must stay in range. */
  function Sub(a: Asset, b: Asset): (r: Result<Asset>)
    ensures r.Ok? <==> a.sym == b.sym && -MaxAmount <= a.amount - b.amount <= MaxAmount
    ensures r.Ok? ==> r.value.amount == a.amount - b.amount && r.value.sym == a.sym
    ensures a.sym != b.sym ==> r == Err(SymbolMismatch)
    ensures r.Err? ==> r.error == SymbolMismatch || r.error == AmountOutOfRange
  {
    if a.sym != b.sym then Err(SymbolMismatch) else MakeAsset(a.amount - b.amount, a.sym)
  }
}

=== FILE: cint.dfy ===
/** Fixed-width and C-style integer arithmetic used by the plugin. */
module CInt {

  const TwoTo31: int := 0x8000_0000
  const TwoTo32: int := 0x1_0000_0000

  /** A C++ `int32_t`. */
  type Int32 = x: int | -TwoTo31 <= x < TwoTo31

  /** Two's-complement conversion of an integer into an `int32_t`, as the compiled code behaves
      for narrowing casts and for signed additions that leave the 32-bit range. */
  function Wrap32(x: int): (r: Int32)
    ensures -TwoTo31 <= x < TwoTo31 ==> r == x
    ensures (r - x) % TwoTo32 == 0
  {
    var m := (x + TwoTo31) % TwoTo32;
    assert x + TwoTo31 == TwoTo32 * ((x + TwoTo31) / TwoTo32) + m;
    m - TwoTo31
  }

  /** C++ integer division `a / d` for a positive divisor: the quotient is truncated toward zero,
      unlike Dafny's Euclidean `/`. */
  function TruncDiv(a: int, d: int): (q: int)
    requires d > 0
    ensures a >= 0 ==> 0 <= q * d <= a < q * d + d
    ensures a < 0 ==> q * d - d < a <= q * d <= 0
  {
    var n := if a >= 0 then a else -a;
    var k := n / d;
    DivBounds(n, d);
    NegMul(k, d);
    if a >= 0 then k else -k
  }

  /** The Euclidean quotient of a non-negative number, times the divisor, is the largest multiple
      not above it. */
  lemma DivBounds(n: int, d: int)
    requires n >= 0 && d > 0
    ensures 0 <= (n / d) * d <= n < (n / d) * d + d
  {
    var k, m := n / d, n % d;
    assert n == d * k + m && 0 <= m < d;
    assert k * d == n - m;
  }

  lemma NegMul(k: int, d: int)
    ensures (-k) * d == -(k * d)
  {
  }
}

=== FILE: common.dfy ===
/** Failure-carrying values shared by every module of the RAM plugin model. */
module Common {

  /** Every way an operation of the plugin can fail. */
  datatype Error =
    | BadField(key: string)   // a field of an action's data is absent or has the wrong shape
    | SymbolMismatch          // asset arithmetic between two different symbols
    | AmountOutOfRange        // an asset amount outside the library's representable range
    | InvalidSell             // convert: the input symbol matches no connector
    | InvalidConversion       // convert: the target symbol matches no connector
    | InvalidRange            // get_actions: the resolved range ends before it starts
    | IllegalSymbol           // evaluate: the input is neither ENU nor RAM

  datatype Option<+T> = None | Some(value: T)

  datatype Result<+T> = Ok(value: T) | Err(error: Error) {
    predicate IsFailure() {
      Err?
    }

    function PropagateFailure<U>(): Result<U>
      requires Err?
    {
      Err(error)
    }

    function Extract(): T
      requires Ok?
    {
      value
    }
  }
}

=== FILE: evaluate.dfy ===
/** The price query: what a swap between ENU and RAM would yield on a given market, after the
    0.5% trading fee. */
module Evaluate {
  import opened Common
  import opened CInt
  import opened Assets
  import opened Exchange

  /** The query's answer. The source never fills the two market fields, so they keep the
      default asset. */
  datatype EvalResult = EvalResult(to: Asset, fee: Asset, rammarketBase: Asset, rammarketQuote: Asset,
                                   lastIrreversibleBlock: nat)

  /** The fee `(amount + 199) / 200` in C++ 64-bit arithmetic: a 0.5% fee rounded up for a
      non-negative amount; for a negative one, C++ truncates the quotient toward zero. */
  function Fee(amount: Amount): (f: Amount)
    ensures amount >= 0 ==> 200 * (f - 1) < amount <= 200 * f
    ensures amount >= 0 ==> 0 <= f <= amount
    ensures amount < 0 ==> amount < 200 * f <= 0
    ensures amount < 0 && amount + 199 >= 0 ==> f == 0
    ensures amount + 199 < 0 ==> 200 * f - 200 < amount + 199 <= 200 * f
    ensures -MaxAmount <= amount - f <= MaxAmount
  {
    TruncDiv(amount + 199, 200)
  }

  /** `evaluate`: only `4,ENU` and `0,RAM` are accepted. ENU to RAM takes the fee from the input
      and converts the rest; RAM to ENU converts the whole input and takes the fee from the
      output. The market is the snapshot read for this call. */
  function Evaluate(from: Asset, es: ExchangeState, curve: Curve, lib: nat): (r: Result<EvalResult>)
    ensures r == Err(IllegalSymbol) <==> from.sym != Enu && from.sym != Ram
    ensures r.Ok? ==> r.value.to.sym == (if from.sym == Enu then Ram else Enu)
    ensures r.Ok? ==> r.value.rammarketBase == Zero && r.value.rammarketQuote == Zero
    ensures r.Ok? ==> r.value.lastIrreversibleBlock == lib
    ensures from.sym == Enu ==>
      var net := Asset(from.amount - Fee(from.amount), Enu);
      var c := Convert(es, net, Ram, curve);
      && (r.Ok? <==> c.Ok?)
      && (r.Ok? ==> r.value.fee == Asset(Fee(from.amount), Enu) && r.value.to == c.value.out)
    ensures from.sym == Ram ==>
      var c := Convert(es, from, Enu, curve);
      && (r.Ok? <==> c.Ok?)
      && (r.Ok? ==>
            r.value.fee == Asset(Fee(c.value.out.amount), Enu)
            && r.value.to.amount + r.value.fee.amount == c.value.out.amount)
  {
    if from.sym != Enu && from.sym != Ram then Err(IllegalSymbol)
    else
      var toSym := if from.sym == Enu then Ram else Enu;
      if from.sym == Enu then
        var fee := Asset(Fee(from.amount), from.sym);
        match Sub(from, fee)
        case Err(e) => Err(e)
        case Ok(net) =>
          var c :- Convert(es, net, toSym, curve);
          Ok(EvalResult(c.out, fee, Zero, Zero, lib))
      else
        var c :- Convert(es, from, toSym, curve);
        var fee := Asset(Fee(c.out.amount), c.out.sym);
        match Sub(c.out, fee)
        case Err(e) => Err(e)
        case Ok(to) => Ok(EvalResult(to, fee, Zero, Zero, lib))
  }
}

=== FILE: exchange.dfy ===
/** The RAM market's bookkeeping: a share supply between two connectors, and the routing of a
    conversion through them. The bonding-curve formulas themselves are floating-point
    computations and enter as uninterpreted functions. */
module Exchange {
  import opened Common
  import opened Assets

  /** One side of the market. The weight is a floating-point number the curve alone reads. */
  datatype Connector = Connector(balance: Asset, weight: real)

  datatype ExchangeState = ExchangeState(supply: Asset, base: Connector, quote: Connector)

  datatype Side = Base | Quote

  /** The truncated results of the two curve formulas, each given the quantities the source feeds
      it: `issue(R, C, weight, T)` with R the supply, C the connector balance plus the deposit and
      T the deposit; `redeem(R, C, weight, E)` with R the supply less the shares redeemed, C the
      connector balance and E the shares redeemed. */
  datatype Curve = Curve(issue: (int, int, real, int) -> int, redeem: (int, int, real, int) -> int)

  datatype Converted = Converted(state: ExchangeState, out: Asset)

  function Pick(st: ExchangeState, side: Side): Connector {
    if side == Base then st.base else st.quote
  }

  function Put(st: ExchangeState, side: Side, c: Connector): ExchangeState {
    if side == Base then st.(base := c) else st.(quote := c)
  }

  /** Both connectors and the supply keep their symbols, and the weights do not change. */
  ghost predicate SameShape(a: ExchangeState, b: ExchangeState) {
    && a.supply.sym == b.supply.sym
    && a.base.balance.sym == b.base.balance.sym && a.base.weight == b.base.weight
    && a.quote.balance.sym == b.quote.balance.sym && a.quote.weight == b.quote.weight
  }

  /** `convert_to_exchange`: deposit `input` into one connector for newly issued shares. */
  function ToExchange(st: ExchangeState, side: Side, input: Asset, curve: Curve): (r: Result<Converted>)
    ensures input.sym != Pick(st, side).balance.sym ==> r.Err?
    ensures r.Err? ==> r.error == SymbolMismatch || r.error == AmountOutOfRange
    ensures r.Ok? ==> var c := Pick(st, side); var st' := r.value.state;
      && r.value.out.sym == st.supply.sym
      && r.value.out.amount == curve.issue(st.supply.amount, c.balance.amount + input.amount, c.weight, input.amount)
      && st'.supply.amount == st.supply.amount + r.value.out.amount
      && Pick(st', side).balance.amount == c.balance.amount + input.amount
      && Pick(st', if side == Base then Quote else Base) == Pick(st, if side == Base then Quote else Base)
      && SameShape(st, st')
  {
    var c := Pick(st, side);
    var issued := curve.issue(st.supply.amount, c.balance.amount + input.amount, c.weight, input.amount);
    var shares :- MakeAsset(issued, st.supply.sym);
    var supply :- Add(st.supply, shares);
    var balance :- Add(c.balance, input);
    Ok(Converted(Put(st.(supply := supply), side, c.(balance := balance)), shares))
  }

  /** `convert_from_exchange`: redeem `input` shares for an amount of one connector's asset. */
  function FromExchange(st: ExchangeState, side: Side, input: Asset, curve: Curve): (r: Result<Converted>)
    ensures input.sym != st.supply.sym ==> r == Err(SymbolMismatch)
    ensures r.Err? ==> r.error == SymbolMismatch || r.error == AmountOutOfRange
    ensures r.Ok? ==> var c := Pick(st, side); var st' := r.value.state;
      && r.value.out.sym == c.balance.sym
      && r.value.out.amount == curve.redeem(st.supply.amount - input.amount, c.balance.amount, c.weight, input.amount)
      && st'.supply.amount == st.supply.amount - input.amount
      && Pick(st', side).balance.amount == c.balance.amount - r.value.out.amount
      && Pick(st', if side == Base then Quote else Base) == Pick(st, if side == Base then Quote else Base)
      && SameShape(st, st')
  {
    var c := Pick(st, side);
    var remaining :- Sub(st.supply, input);
    var paid := curve.redeem(remaining.amount, c.balance.amount, c.weight, input.amount);
    // the source subtracts `input` from the supply a second time here, with the same result
    var supply := remaining;
    var tokens :- MakeAsset(paid, c.balance.sym);
    var balance :- Sub(c.balance, tokens);
    Ok(Converted(Put(st.(supply := supply), side, c.(balance := balance)), tokens))
  }

  /** The connector `convert` routes a symbol through, base first. */
  function SideOf(st: ExchangeState, sym: Symbol): Side {
    if sym == st.base.balance.sym then Base else Quote
  }

  /** `convert`: an asset that is not the share goes into the market through the connector of its
      symbol, base first; a share comes out through the connector of the target symbol, base
      first; this repeats until the target symbol is reached. */
  function Convert(st: ExchangeState, from: Asset, to: Symbol, curve: Curve): (r: Result<Converted>)
    decreases if from.sym == st.supply.sym then 0 else 1
    ensures from.sym != st.supply.sym && from.sym != st.base.balance.sym && from.sym != st.quote.balance.sym
      ==> r == Err(InvalidSell)
    ensures from.sym == st.supply.sym && to != st.base.balance.sym && to != st.quote.balance.sym
      ==> r == Err(InvalidConversion)
    ensures from.sym == st.supply.sym && (to == st.base.balance.sym || to == st.quote.balance.sym)
      ==> r == FromExchange(st, SideOf(st, to), from, curve)
    ensures from.sym != st.supply.sym && to == st.supply.sym
      && (from.sym == st.base.balance.sym || from.sym == st.quote.balance.sym)
      ==> r == ToExchange(st, SideOf(st, from.sym), from, curve)
    ensures to != st.supply.sym && to != st.base.balance.sym && to != st.quote.balance.sym ==> r.Err?
    ensures r.Ok? ==> r.value.out.sym == to && SameShape(st, r.value.state)
    ensures r.Err? ==> r.error in {InvalidSell, InvalidConversion, SymbolMismatch, AmountOutOfRange}
  {
    if from.sym != st.supply.sym then
      if from.sym == st.base.balance.sym || from.sym == st.quote.balance.sym then
        var side := if from.sym == st.base.balance.sym then Base else Quote;
        var hop :- ToExchange(st, side, from, curve);
        if to != hop.out.sym then Convert(hop.state, hop.out, to, curve) else Ok(hop)
      else Err(InvalidSell)
    else
      if to == st.base.balance.sym || to == st.quote.balance.sym then
        var side := if to == st.base.balance.sym then Base else Quote;
        // the result carries the target symbol, so the source's final test does not recurse
        FromExchange(st, side, from, curve)
      else Err(InvalidConversion)
  }

  /** A conversion between two connector symbols takes exactly two hops: into the share supply
      through the input's connector, then out through the target's connector. It leaves the share
      supply where it was, credits the input connector with the input and, when the connectors
      differ, debits the target connector by the output. */
  lemma ConvertThroughShare(st: ExchangeState, from: Asset, to: Symbol, curve: Curve)
    requires from.sym != st.supply.sym && to != st.supply.sym
    requires from.sym == st.base.balance.sym || from.sym == st.quote.balance.sym
    requires to == st.base.balance.sym || to == st.quote.balance.sym
    ensures var r := Convert(st, from, to, curve);
      var x, y := SideOf(st, from.sym), SideOf(st, to);
      && r == (match ToExchange(st, x, from, curve)
               case Err(e) => Err(e)
               case Ok(h) => FromExchange(h.state, y, h.out, curve))
      && (r.Ok? ==>
           && r.value.state.supply == st.supply
           && (x != y ==> Pick(r.value.state, x).balance.amount == Pick(st, x).balance.amount + from.amount)
           && (x != y ==> Pick(r.value.state, y).balance.amount == Pick(st, y).balance.amount - r.value.out.amount))
  {
  }
}

=== FILE: history.dfy ===
/** The history query: `get_actions` resolves a position and an offset into a range of record
    ids and walks the log through it under a time budget. */
module History {
  import opened Common
  import opened CInt
  import opened Ledger

  /** Request parameters; both are optional 32-bit integers. */
  datatype Params = Params(pos: Option<Int32>, offset: Option<Int32>)

  /** A half-open range of record ids, `start` included, `stop` excluded. */
  datatype Range = Range(start: Int32, stop: Int32)

  /** A record as the query reports it: the id plus one as its sequence number, then its fields. */
  datatype ActionView = ActionView(actionSeq: nat, entry: Entry)

  /** The query's answer. `timeLimitExceeded` false stands for the unset optional flag. */
  datatype Page = Page(actions: seq<ActionView>, lastIrreversibleBlock: nat, timeLimitExceeded: bool)

  datatype Walked = Walked(actions: seq<ActionView>, exceeded: bool)

  const DefaultPos: Int32 := -1
  const DefaultOffset: Int32 := -20

  function View(r: RamAction): ActionView {
    ActionView(r.id + 1, r.entry)
  }

  function RequestedPos(p: Params): Int32 {
    if p.pos.Some? then p.pos.value else DefaultPos
  }

  function RequestedOffset(p: Params): Int32 {
    if p.offset.Some? then p.offset.value else DefaultOffset
  }

  /** The views are those of consecutive records of the log, the first one being record `start`. */
  ghost predicate Shows(actions: seq<ActionView>, log: Log, start: int) {
    forall i :: 0 <= i < |actions| ==> 0 <= start + i < |log| && actions[i] == View(log[start + i])
  }

  function Min(a: int, b: int): int { if a <= b then a else b }
  function Max(a: int, b: int): int { if a >= b then a else b }

  /** The range arithmetic of `get_actions`, on `int32_t` as the source declares it: the log size
      is narrowed to 32 bits and `pos + offset` wraps when it leaves the 32-bit range. */
  function ResolveRange(p: Params, size: nat): (r: Result<Range>)
    ensures r.Ok? ==> r.value.start <= r.value.stop
    ensures r.Err? ==> r.error == InvalidRange
  {
    var size32 := Wrap32(size);
    var pos := if RequestedPos(p) <= -1 then size32 else RequestedPos(p);
    var offset := RequestedOffset(p);
    var range :=
      if offset > 0 then
        var stop := Wrap32(pos + offset);
        Range(pos, if stop >= size32 then size32 else stop)
      else
        var start := Wrap32(pos + offset);
        Range(if start < 0 then 0 else start, pos);
    if range.stop >= range.start then Ok(range) else Err(InvalidRange)
  }

  /** For a log of fewer than 2^31 records and a forward page whose end does not overflow: a
      position at or below -1 means the log size; a forward page is `[pos, min(pos + offset,
      size))` and is refused exactly when it starts past the end of the log; a backward page is
      `[max(pos + offset, 0), pos)` and is never refused. */
  lemma ResolveRangeBySize(p: Params, size: nat)
    requires size < TwoTo31
    requires RequestedOffset(p) > 0 ==>
      (if RequestedPos(p) <= -1 then size else RequestedPos(p)) + RequestedOffset(p) < TwoTo31
    ensures var pos := if RequestedPos(p) <= -1 then size else RequestedPos(p);
      var offset := RequestedOffset(p);
      var r := ResolveRange(p, size);
      && (offset > 0 ==> (r.Ok? <==> pos <= size))
      && (offset > 0 && r.Ok? ==> r.value == Range(pos, Min(pos + offset, size)))
      && (offset <= 0 ==> r == Ok(Range(Max(pos + offset, 0), pos)))
  {
  }

  /** The loop of `get_actions` from id `id` up to `stop`, `n` records having been gathered
      already. `clock(k)` says whether the time budget is exhausted when checked right after the
      k-th record was gathered; the source reads the wall clock there. */
  function Walk(log: Log, id: int, stop: int, clock: nat -> bool, n: nat): (w: Walked)
    requires id <= stop
    decreases stop - id
    ensures |w.actions| <= stop - id
    ensures Shows(w.actions, log, id)
    ensures forall i :: 0 <= i < |w.actions| ==> w.actions[i].actionSeq == id + i + 1
    ensures w.exceeded <==> |w.actions| > 0 && clock(n + |w.actions|)
    ensures forall k :: n < k < n + |w.actions| ==> !clock(k)
    ensures !w.exceeded ==> id + |w.actions| == stop || Find(log, id + |w.actions|).None?
    ensures !w.exceeded && 0 <= id ==> id + |w.actions| == Max(id, Min(stop, |log|))
  {
    if id == stop then Walked([], false)
    else
      match Find(log, id)
      case None => Walked([], false)
      case Some(o) =>
        var v := View(o);
        if clock(n + 1) then Walked([v], true)
        else
          var rest := Walk(log, id + 1, stop, clock, n + 1);
          Walked([v] + rest.actions, rest.exceeded)
  }

  /** `get_actions`. */
  function GetActions(log: Log, p: Params, clock: nat -> bool, lib: nat): (r: Result<Page>)
    ensures r.Err? <==> ResolveRange(p, |log|).Err?
    ensures r.Err? ==> r.error == InvalidRange
    ensures r.Ok? ==> r.value.lastIrreversibleBlock == lib
    ensures r.Ok? ==> var range := ResolveRange(p, |log|).value;
      && |r.value.actions| <= range.stop - range.start
      && Shows(r.value.actions, log, range.start)
      && (r.value.timeLimitExceeded <==> |r.value.actions| > 0 && clock(|r.value.actions|))
      && (forall k :: 0 < k < |r.value.actions| ==> !clock(k))
      && (!r.value.timeLimitExceeded && 0 <= range.start ==>
            range.start + |r.value.actions| == Max(range.start, Min(range.stop, |log|)))
  {
    match ResolveRange(p, |log|)
    case Err(e) => Err(e)
    case Ok(range) =>
      var w := Walk(log, range.start, range.stop, clock, 0);
      Ok(Page(w.actions, lib, w.exceeded))
  }

  function Views(s: seq<RamAction>): (r: seq<ActionView>)
    ensures |r| == |s| && forall i :: 0 <= i < |s| ==> r[i] == View(s[i])
  {
    seq(|s|, i requires 0 <= i < |s| => View(s[i]))
  }

  /** With no parameters and a clock that never runs out, the answer is the last twenty records
      (all of them in a shorter log), oldest first, each numbered by its id plus one. */
  lemma LatestPage(log: Log, clock: nat -> bool, lib: nat)
    requires |log| < TwoTo31
    requires forall k :: !clock(k)
    ensures GetActions(log, Params(None, None), clock, lib)
         == Ok(Page(Views(log[Max(|log| - 20, 0)..]), lib, false))
  {
    ResolveRangeBySize(Params(None, None), |log|);
    var r := GetActions(log, Params(None, None), clock, lib);
    var start := Max(|log| - 20, 0);
    assert r.value.actions == Views(log[start..]);
  }
}

=== FILE: interpreter.dfy ===
/** The trace interpreter: the applied-transaction handler and the three RAM-action handlers that
    turn a transaction trace into snapshot updates and appended RAM-action records. */
module Interpreter {
  import opened Common
  import opened Assets
  import opened Ledger
  import opened Traces

  /** The account that receives the tokens paid for RAM. */
  const RamAccount: Account := "enu.ram"

  /** The account that receives the RAM trading fee. */
  const RamFeeAccount: Account := "enu.ramfee"

  /** What the handlers read from the chain while a trace is processed: the live RAM limit of
      every account, and the pending block's number and time. */
  datatype Env = Env(ramLimit: Account -> int, blockNum: nat, blockTime: nat)

  /** A handler either completes, or throws part-way. A throw leaves behind whatever the handler
      had already written, which is at most the snapshot update; no partial record exists. */
  datatype Outcome = Done(db: RamDb) | Aborted(db: RamDb, error: Error)

  /** The cost of a buy as read off its inline transfers. */
  datatype Cost = Cost(subFee: Asset, fee: Asset)

  /* ---------------------------------------------------------------------------------------- */
  /* Inline transfers                                                                          */

  /** The position of the last inline action whose field `key` names `account`. */
  function LastMatch(s: seq<InlineTrace>, key: string, account: Account): (r: Option<nat>)
    ensures r.Some? ==> r.value < |s| && Names(s[r.value], key, account)
    ensures r.Some? ==> forall j :: r.value < j < |s| ==> !Names(s[j], key, account)
    ensures r.None? ==> forall j :: 0 <= j < |s| ==> !Names(s[j], key, account)
  {
    if |s| == 0 then None
    else if Names(s[|s| - 1], key, account) then Some(|s| - 1)
    else LastMatch(s[..|s| - 1], key, account)
  }

  predicate HasQuantity(x: InlineTrace) {
    "quantity" in x.data && x.data["quantity"].Quantity?
  }

  /** The quantity carried by the last inline action whose `key` names `account`; zero when there
      is none (or when its quantity is unreadable, a case the scans below reject). */
  function LastQuantity(s: seq<InlineTrace>, key: string, account: Account): Asset {
    match LastMatch(s, key, account)
    case None => Zero
    case Some(i) =>
      if HasQuantity(s[i]) then s[i].data["quantity"].q else Zero
  }

  /** An inline action the buy scan reads without throwing. */
  predicate BuyInlineOk(x: InlineTrace) {
    && "to" in x.data && x.data["to"].Str?
    && (Names(x, "to", RamAccount) || Names(x, "to", RamFeeAccount) ==> HasQuantity(x))
  }

  /** An inline action the sell scan reads without throwing. */
  predicate SellInlineOk(x: InlineTrace) {
    && "from" in x.data && x.data["from"].Str?
    && (Names(x, "from", RamAccount) ==> HasQuantity(x))
  }

  function BuyStep(c: Cost, x: InlineTrace): Result<Cost> {
    var dest :- GetString(x.data, "to");
    var subFee :- if dest == RamAccount then GetQuantity(x.data) else Ok(c.subFee);
    // the source reads `to` a second time here; that read cannot fail once the first succeeded
    var fee :- if dest == RamFeeAccount then GetQuantity(x.data) else Ok(c.fee);
    Ok(Cost(subFee, fee))
  }

  /** The loop of the buy handlers over the inline traces, from zero assets, in trace order. */
  function BuyCost(s: seq<InlineTrace>): Result<Cost> {
    if |s| == 0 then Ok(Cost(Zero, Zero))
    else
      var c :- BuyCost(s[..|s| - 1]);
      BuyStep(c, s[|s| - 1])
  }

  function SellStep(token: Asset, x: InlineTrace): Result<Asset> {
    var src :- GetString(x.data, "from");
    if src == RamAccount then GetQuantity(x.data) else Ok(token)
  }

  /** The loop of the sell handler over the inline traces, from a zero asset, in trace order. */
  function SellIncome(s: seq<InlineTrace>): Result<Asset> {
    if |s| == 0 then Ok(Zero)
    else
      var token :- SellIncome(s[..|s| - 1]);
      SellStep(token, s[|s| - 1])
  }

  /** The buy scan throws exactly when some inline action is unreadable; otherwise the amount
      paid to the sale account and the fee are the quantities of the LAST transfer to each. */
  lemma {:induction false} BuyCostIsLastTransfers(s: seq<InlineTrace>)
    ensures BuyCost(s).Ok? <==> forall i :: 0 <= i < |s| ==> BuyInlineOk(s[i])
    ensures BuyCost(s).Ok? ==>
      BuyCost(s).value == Cost(LastQuantity(s, "to", RamAccount), LastQuantity(s, "to", RamFeeAccount))
  {
    if |s| > 0 {
      var p, x := s[..|s| - 1], s[|s| - 1];
      BuyCostIsLastTransfers(p);
      assert forall i :: 0 <= i < |p| ==> p[i] == s[i];
      assert (forall i :: 0 <= i < |s| ==> BuyInlineOk(s[i]))
        <==> (forall i :: 0 <= i < |p| ==> BuyInlineOk(p[i])) && BuyInlineOk(x);
    }
  }

  /** The sell scan throws exactly when some inline action is unreadable; otherwise the tokens
      received are the quantity of the LAST transfer out of the sale account. */
  lemma {:induction false} SellIncomeIsLastTransfer(s: seq<InlineTrace>)
    ensures SellIncome(s).Ok? <==> forall i :: 0 <= i < |s| ==> SellInlineOk(s[i])
    ensures SellIncome(s).Ok? ==> SellIncome(s).value == LastQuantity(s, "from", RamAccount)
  {
    if |s| > 0 {
      var p, x := s[..|s| - 1], s[|s| - 1];
      SellIncomeIsLastTransfer(p);
      assert forall i :: 0 <= i < |p| ==> p[i] == s[i];
      assert (forall i :: 0 <= i < |s| ==> SellInlineOk(s[i]))
        <==> (forall i :: 0 <= i < |p| ==> SellInlineOk(p[i])) && SellInlineOk(x);
    }
  }

  /* ---------------------------------------------------------------------------------------- */
  /* Handlers                                                                                  */

  /** The record fields of a buy, built after the snapshot update: token is the sale-account
      payment plus the fee, then payer and (for a bytes buy) the requested bytes are read. */
  function BuyEntry(t: ActionTrace, trxId: string, receiver: Account, delta: nat, env: Env, byBytes: bool): Result<Entry> {
    var cost :- BuyCost(t.inlines);
    var token :- Add(cost.subFee, cost.fee);
    var payer :- GetString(t.data, "payer");
    var expRam :- if byBytes then GetInt(t.data, "bytes") else Ok(delta);
    Ok(Entry(payer, receiver, t.name, token, cost.fee, expRam, delta, env.blockNum, env.blockTime, trxId))
  }

  /** The common body of `on_buyram` and `on_buyrambytes`. */
  function OnBuy(db: RamDb, t: ActionTrace, trxId: string, env: Env, byBytes: bool): Outcome {
    match GetString(t.data, "receiver")
    case Err(e) => Aborted(db, e)
    case Ok(receiver) =>
      var d := CalcRamDelta(db.accounts, receiver, env.ramLimit(receiver));
      var db1 := db.(accounts := d.1);
      match BuyEntry(t, trxId, receiver, d.0, env, byBytes)
      case Err(e) => Aborted(db1, e)
      case Ok(entry) => Done(db1.(actions := Append(db1.actions, entry)))
  }

  /** The RAM the action's subject account gained or lost since it was last observed. */
  function Moved(s: Snapshot, account: Account, env: Env): nat {
    Abs(env.ramLimit(account) - Known(s, account))
  }

  /** A buy action that every handler step reads without throwing. */
  ghost predicate BuyReadable(t: ActionTrace, byBytes: bool) {
    var paid, fee := LastQuantity(t.inlines, "to", RamAccount), LastQuantity(t.inlines, "to", RamFeeAccount);
    && "receiver" in t.data && t.data["receiver"].Str?
    && (forall i :: 0 <= i < |t.inlines| ==> BuyInlineOk(t.inlines[i]))
    && paid.sym == fee.sym
    && -MaxAmount <= paid.amount + fee.amount <= MaxAmount
    && "payer" in t.data && t.data["payer"].Str?
    && (byBytes ==> "bytes" in t.data && t.data["bytes"].Int?)
  }

  /** What a buy record says about the action it came from. */
  ghost predicate BuyRecord(e: Entry, t: ActionTrace, trxId: string, s: Snapshot, env: Env) {
    var paid, fee := LastQuantity(t.inlines, "to", RamAccount), LastQuantity(t.inlines, "to", RamFeeAccount);
    && "receiver" in t.data && t.data["receiver"] == Str(e.receiver)
    && "payer" in t.data && t.data["payer"] == Str(e.payer)
    && e.name == t.name
    && e.fee == fee
    && e.token.sym == fee.sym && e.token.amount == paid.amount + fee.amount
    && e.actRam == Moved(s, e.receiver, env)
    && e.blockNum == env.blockNum && e.blockTime == env.blockTime && e.trxId == trxId
  }

  lemma {:induction false} OnBuyFacts(db: RamDb, t: ActionTrace, trxId: string, env: Env, byBytes: bool)
    ensures var o := OnBuy(db, t, trxId, env, byBytes);
      && (o.Done? <==> BuyReadable(t, byBytes))
      && (o.Done? ==> && |o.db.actions| == |db.actions| + 1 && o.db.actions[..|db.actions|] == db.actions
                      && BuyRecord(o.db.actions[|db.actions|].entry, t, trxId, db.accounts, env)
                      && o.db.actions[|db.actions|].entry.expRam
                         == (if byBytes then t.data["bytes"].i else o.db.actions[|db.actions|].entry.actRam))
      && (o.Aborted? ==> o.db.actions == db.actions)
  {
    BuyCostIsLastTransfers(t.inlines);
    var o := OnBuy(db, t, trxId, env, byBytes);
    match GetString(t.data, "receiver")
    case Err(_) =>
    case Ok(receiver) =>
      var d := CalcRamDelta(db.accounts, receiver, env.ramLimit(receiver));
      var db1 := db.(accounts := d.1);
      var be := BuyEntry(t, trxId, receiver, d.0, env, byBytes);
      assert o == (if be.Err? then Aborted(db1, be.error) else Done(db1.(actions := Append(db1.actions, be.value))));
      if be.Ok? {
        var cost := BuyCost(t.inlines).value;
        assert cost == Cost(LastQuantity(t.inlines, "to", RamAccount), LastQuantity(t.inlines, "to", RamFeeAccount));
        assert be.value.receiver == receiver && be.value.fee == cost.fee && be.value.actRam == d.0;
        assert o.db.actions[|db.actions|].entry == be.value;
      }
  }

  /** `on_buyram`: one record whose requested and realised RAM are both the observed delta; the
      paid amount includes the fee; the receiver's snapshot takes its live limit even when a
      later read throws. */
  function OnBuyRam(db: RamDb, t: ActionTrace, trxId: string, env: Env): (o: Outcome)
    ensures o.Done? <==> BuyReadable(t, false)
    ensures o.Done? ==> |o.db.actions| == |db.actions| + 1 && o.db.actions[..|db.actions|] == db.actions
    ensures o.Done? ==> o.db.actions[|db.actions|].id == |db.actions|
    ensures o.Done? ==> var e := o.db.actions[|db.actions|].entry;
      BuyRecord(e, t, trxId, db.accounts, env) && e.expRam == e.actRam
    ensures o.Aborted? ==> o.db.actions == db.actions
    ensures "receiver" in t.data && t.data["receiver"].Str? ==>
      var r := t.data["receiver"].s; o.db.accounts == db.accounts[r := env.ramLimit(r)]
    ensures !("receiver" in t.data && t.data["receiver"].Str?) ==> o == Aborted(db, BadField("receiver"))
  {
    OnBuyFacts(db, t, trxId, env, false);
    OnBuy(db, t, trxId, env, false)
  }

  /** `on_buyrambytes`: as `on_buyram`, except that the requested RAM is the action's `bytes`. */
  function OnBuyRamBytes(db: RamDb, t: ActionTrace, trxId: string, env: Env): (o: Outcome)
    ensures o.Done? <==> BuyReadable(t, true)
    ensures o.Done? ==> |o.db.actions| == |db.actions| + 1 && o.db.actions[..|db.actions|] == db.actions
    ensures o.Done? ==> o.db.actions[|db.actions|].id == |db.actions|
    ensures o.Done? ==> var e := o.db.actions[|db.actions|].entry;
      BuyRecord(e, t, trxId, db.accounts, env) && e.expRam == t.data["bytes"].i
    ensures o.Aborted? ==> o.db.actions == db.actions
    ensures "receiver" in t.data && t.data["receiver"].Str? ==>
      var r := t.data["receiver"].s; o.db.accounts == db.accounts[r := env.ramLimit(r)]
    ensures !("receiver" in t.data && t.data["receiver"].Str?) ==> o == Aborted(db, BadField("receiver"))
  {
    OnBuyFacts(db, t, trxId, env, true);
    OnBuy(db, t, trxId, env, true)
  }

  /** A sell action that every handler step reads without throwing. */
  ghost predicate SellReadable(t: ActionTrace) {
    && "account" in t.data && t.data["account"].Str?
    && (forall i :: 0 <= i < |t.inlines| ==> SellInlineOk(t.inlines[i]))
  }

  /** `on_sellram`: one record with the seller as both payer and receiver, a zero fee, requested
      and realised RAM both the observed delta, and the tokens of the last transfer out of the
      sale account; the seller's snapshot takes its live limit even when a later read throws. */
  function OnSellRam(db: RamDb, t: ActionTrace, trxId: string, env: Env): (o: Outcome)
    ensures o.Done? <==> SellReadable(t)
    ensures o.Done? ==> |o.db.actions| == |db.actions| + 1 && o.db.actions[..|db.actions|] == db.actions
    ensures o.Done? ==> o.db.actions[|db.actions|] == RamAction(|db.actions|, Entry(
      t.data["account"].s, t.data["account"].s, t.name,
      LastQuantity(t.inlines, "from", RamAccount), Asset(0, Enu),
      Moved(db.accounts, t.data["account"].s, env), Moved(db.accounts, t.data["account"].s, env),
      env.blockNum, env.blockTime, trxId))
    ensures o.Aborted? ==> o.db.actions == db.actions
    ensures "account" in t.data && t.data["account"].Str? ==>
      var a := t.data["account"].s; o.db.accounts == db.accounts[a := env.ramLimit(a)]
    ensures !("account" in t.data && t.data["account"].Str?) ==> o == Aborted(db, BadField("account"))
  {
    SellIncomeIsLastTransfer(t.inlines);
    match GetString(t.data, "account")
    case Err(e) => Aborted(db, e)
    case Ok(account) =>
      var d := CalcRamDelta(db.accounts, account, env.ramLimit(account));
      var db1 := db.(accounts := d.1);
      match SellIncome(t.inlines)
      case Err(e) => Aborted(db1, e)
      case Ok(token) =>
        var fee := Asset(0, Enu);   // the source parses the literal "0.0000 ENU"
        Done(db1.(actions := Append(db1.actions,
          Entry(account, account, t.name, token, fee, d.0, d.0, env.blockNum, env.blockTime, trxId))))
  }

  /* ---------------------------------------------------------------------------------------- */
  /* Transactions                                                                              */

  /** The three action names the plugin reacts to. */
  predicate Recognized(t: ActionTrace) {
    t.name == "buyram" || t.name == "buyrambytes" || t.name == "sellram"
  }

  /** The data field naming the account whose RAM an action changes. */
  function SubjectKey(t: ActionTrace): string {
    if t.name == "sellram" then "account" else "receiver"
  }

  /** One iteration of the loop of `on_applied_transaction`. */
  function OnAction(db: RamDb, t: ActionTrace, trxId: string, env: Env): (o: Outcome)
    ensures !Recognized(t) ==> o == Done(db)
    ensures o.Aborted? ==> Recognized(t) && o.db.actions == db.actions
    ensures o.Done? && Recognized(t) ==>
      && |o.db.actions| == |db.actions| + 1 && o.db.actions[..|db.actions|] == db.actions
      && o.db.actions[|db.actions|].entry.name == t.name
      && o.db.actions[|db.actions|].entry.trxId == trxId
    ensures Recognized(t) && SubjectKey(t) in t.data && t.data[SubjectKey(t)].Str? ==>
      var a := t.data[SubjectKey(t)].s; o.db.accounts == db.accounts[a := env.ramLimit(a)]
    ensures o.Done? && Recognized(t) ==> SubjectKey(t) in t.data && t.data[SubjectKey(t)].Str?
    ensures o.Done? && Recognized(t) ==>
      o.db.actions[|db.actions|].entry.receiver == t.data[SubjectKey(t)].s
    ensures o.Done? && Recognized(t) ==>
      o.db.actions[|db.actions|].entry.actRam == Moved(db.accounts, t.data[SubjectKey(t)].s, env)
  {
    if t.name == "buyram" then OnBuyRam(db, t, trxId, env)
    else if t.name == "buyrambytes" then OnBuyRamBytes(db, t, trxId, env)
    else if t.name == "sellram" then OnSellRam(db, t, trxId, env)
    else Done(db)
  }

  /** `on_applied_transaction`: every top-level action in order; a throw ends the transaction's
      processing with what was written so far. */
  function OnAppliedTransaction(db: RamDb, trace: TransactionTrace, env: Env): (o: Outcome)
    ensures |db.actions| <= |o.db.actions| && o.db.actions[..|db.actions|] == db.actions
    ensures o.Done? ==> |o.db.actions| == |db.actions| + |RecognizedOf(trace.actions)|
    ensures o.Aborted? ==> |o.db.actions| < |db.actions| + |RecognizedOf(trace.actions)|
    ensures Follows(o.db.actions[|db.actions|..], RecognizedOf(trace.actions), trace.trxId)
    ensures o.Done? ==> o.db.accounts.Keys == db.accounts.Keys + Touched(trace.actions)
    ensures o.Done? ==> forall a :: a in Touched(trace.actions) ==> o.db.accounts[a] == env.ramLimit(a)
  {
    LedgerGrowth(db, trace.actions, trace.trxId, env);
    LedgerFollowsTrace(db, trace.actions, trace.trxId, env);
    SnapshotTracksLimits(db, trace.actions, trace.trxId, env);
    ApplyActions(db, trace.actions, trace.trxId, env)
  }

  function ApplyActions(db: RamDb, s: seq<ActionTrace>, trxId: string, env: Env): Outcome
    decreases |s|
  {
    if |s| == 0 then Done(db)
    else
      match OnAction(db, s[0], trxId, env)
      case Aborted(db1, e) => Aborted(db1, e)
      case Done(db1) => ApplyActions(db1, s[1..], trxId, env)
  }

  /** The recognised actions of a sequence, in order: an independent account of what the loop
      should have recorded. */
  function RecognizedOf(s: seq<ActionTrace>): seq<ActionTrace> {
    if |s| == 0 then [] else (if Recognized(s[0]) then [s[0]] else []) + RecognizedOf(s[1..])
  }

  /** The accounts whose RAM the recognised actions of a sequence change. */
  function Touched(s: seq<ActionTrace>): set<Account> {
    if |s| == 0 then {}
    else
      var t := s[0];
      (if Recognized(t) && SubjectKey(t) in t.data && t.data[SubjectKey(t)].Str?
       then {t.data[SubjectKey(t)].s} else {}) + Touched(s[1..])
  }

  /** The log only grows at its end; a completed transaction appends exactly one record per
      recognised action; a throw appends strictly fewer, because the action that threw appended
      nothing. */
  lemma {:induction false} LedgerGrowth(db: RamDb, s: seq<ActionTrace>, trxId: string, env: Env)
    ensures var o := ApplyActions(db, s, trxId, env);
      && |db.actions| <= |o.db.actions| && o.db.actions[..|db.actions|] == db.actions
      && (o.Done? ==> |o.db.actions| == |db.actions| + |RecognizedOf(s)|)
      && (o.Aborted? ==> |o.db.actions| < |db.actions| + |RecognizedOf(s)|)
    decreases |s|
  {
    if |s| > 0 {
      var o1 := OnAction(db, s[0], trxId, env);
      assert RecognizedOf(s) == (if Recognized(s[0]) then [s[0]] else []) + RecognizedOf(s[1..]);
      if o1.Done? {
        LedgerGrowth(o1.db, s[1..], trxId, env);
        var o := ApplyActions(db, s, trxId, env);
        assert o == ApplyActions(o1.db, s[1..], trxId, env);
        var n, n1 := |db.actions|, |o1.db.actions|;
        assert o.db.actions[..n] == o.db.actions[..n1][..n];
      }
    }
  }

  /** What a record says about the recognised action it was made for: its name, its subject
      account as the receiver, and the transaction's id. */
  ghost predicate RecordOf(e: Entry, t: ActionTrace, trxId: string) {
    && e.name == t.name
    && SubjectKey(t) in t.data && t.data[SubjectKey(t)] == Str(e.receiver)
    && e.trxId == trxId
  }

  /** The records are, in order, those of a prefix of the actions `s`. */
  ghost predicate Follows(recs: seq<RamAction>, s: seq<ActionTrace>, trxId: string) {
    |recs| <= |s| && forall j :: 0 <= j < |recs| ==> RecordOf(recs[j].entry, s[j], trxId)
  }

  lemma FollowsCons(recs: seq<RamAction>, t: ActionTrace, rest: seq<ActionTrace>, trxId: string)
    requires 0 < |recs| && RecordOf(recs[0].entry, t, trxId)
    requires Follows(recs[1..], rest, trxId)
    ensures Follows(recs, [t] + rest, trxId)
  {
    var s := [t] + rest;
    forall j | 0 < j < |recs|
      ensures RecordOf(recs[j].entry, s[j], trxId)
    {
      assert recs[1..][j - 1] == recs[j] && s[j] == rest[j - 1];
    }
  }

  /** The records a transaction appends are those of its recognised actions, in trace order. */
  lemma {:induction false} LedgerFollowsTrace(db: RamDb, s: seq<ActionTrace>, trxId: string, env: Env)
    ensures var o := ApplyActions(db, s, trxId, env);
      |db.actions| <= |o.db.actions| && Follows(o.db.actions[|db.actions|..], RecognizedOf(s), trxId)
    decreases |s|
  {
    var o := ApplyActions(db, s, trxId, env);
    var n := |db.actions|;
    LedgerGrowth(db, s, trxId, env);
    if |s| == 0 {
      assert o.db == db;
    } else {
      var o1 := OnAction(db, s[0], trxId, env);
      if o1.Aborted? {
        assert o == o1;
      } else {
        var rest := RecognizedOf(s[1..]);
        LedgerFollowsTrace(o1.db, s[1..], trxId, env);
        LedgerGrowth(o1.db, s[1..], trxId, env);
        assert o == ApplyActions(o1.db, s[1..], trxId, env);
        var n1 := |o1.db.actions|;
        assert o.db.actions[..n1] == o1.db.actions;
        if Recognized(s[0]) {
          assert RecognizedOf(s) == [s[0]] + rest;
          assert o.db.actions[n] == o1.db.actions[n];
          assert o.db.actions[n..][1..] == o.db.actions[n1..];
          FollowsCons(o.db.actions[n..], s[0], rest, trxId);
        } else {
          assert RecognizedOf(s) == rest;
          assert o1.db == db;
        }
      }
    }
  }

  /** After a completed transaction, the snapshot holds the live limit of every account some
      recognised action touched, and every other account's entry is exactly as it was. */
  lemma {:induction false} SnapshotTracksLimits(db: RamDb, s: seq<ActionTrace>, trxId: string, env: Env)
    ensures var o := ApplyActions(db, s, trxId, env); var m := o.db.accounts;
      o.Done? ==>
      && m.Keys == db.accounts.Keys + Touched(s)
      && (forall a :: a in Touched(s) ==> m[a] == env.ramLimit(a))
      && (forall a :: a in db.accounts && a !in Touched(s) ==> m[a] == db.accounts[a])
    decreases |s|
  {
    if |s| > 0 {
      var t := s[0];
      var o1 := OnAction(db, t, trxId, env);
      if o1.Aborted? { return; }
      var o := ApplyActions(db, s, trxId, env);
      assert o == ApplyActions(o1.db, s[1..], trxId, env);
      if o.Aborted? { return; }
      SnapshotTracksLimits(o1.db, s[1..], trxId, env);
      var m := o.db.accounts;
      var rest := Touched(s[1..]);
      if Recognized(t) {
        var a := t.data[SubjectKey(t)].s;
        assert o1.db.accounts == db.accounts[a := env.ramLimit(a)];
        assert Touched(s) == {a} + rest;
        assert m.Keys == o1.db.accounts.Keys + rest;
      } else {
        assert o1.db == db;
        assert Touched(s) == rest;
      }
    }
  }

  /** The RAM limit is read when the trace is handled, after the whole transaction ran. So when
      two RAM actions of one transaction concern the same account, the first record is credited
      with the account's entire change and the second with none. */
  lemma SameAccountTwice(db: RamDb, t1: ActionTrace, t2: ActionTrace, trxId: string, env: Env)
    requires Recognized(t1) && Recognized(t2)
    requires SubjectKey(t1) in t1.data && SubjectKey(t2) in t2.data
    requires t1.data[SubjectKey(t1)] == t2.data[SubjectKey(t2)] && t1.data[SubjectKey(t1)].Str?
    ensures var o, n := ApplyActions(db, [t1, t2], trxId, env), |db.actions|;
      o.Done? ==>
      && |o.db.actions| == n + 2
      && o.db.actions[n].entry.actRam == Moved(db.accounts, t1.data[SubjectKey(t1)].s, env)
      && o.db.actions[n + 1].entry.actRam == 0
  {
    var o1 := OnAction(db, t1, trxId, env);
    assert [t1, t2][1..] == [t2];
    assert ApplyActions(o1.db, [t2], trxId, env) == OnAction(o1.db, t2, trxId, env);
    var o2 := OnAction(o1.db, t2, trxId, env);
    assert o2.db.actions[..|o1.db.actions|] == o1.db.actions;
  }
}

=== FILE: ledger.dfy ===
/** The two collections the plugin owns: the append-only log of RAM actions, whose id is the
    insertion rank, and the per-account snapshot of the last RAM balance seen. */
module Ledger {
  import opened Common
  import opened Assets

  type Account = string

  /** The fields of a RAM-action record other than its id. */
  datatype Entry = Entry(
    payer: Account,
    receiver: Account,
    name: string,
    token: Asset,
    fee: Asset,
    expRam: int,   // RAM the action asked for
    actRam: int,   // RAM the account's limit actually moved by
    blockNum: nat,
    blockTime: nat,
    trxId: string)

  datatype RamAction = RamAction(id: nat, entry: Entry)

  /** Ids are dense from zero and equal to the position in the log. */
  predicate Dense(s: seq<RamAction>) {
    forall i :: 0 <= i < |s| ==> s[i].id == i
  }

  type Log = s: seq<RamAction> | Dense(s) witness []

  /** The snapshot store: account to last observed RAM balance. */
  type Snapshot = map<Account, int>

  datatype RamDb = RamDb(actions: Log, accounts: Snapshot)

  const Empty: RamDb := RamDb([], map[])

  /** Creating a record: it receives the next id, and nothing already in the log moves. */
  function Append(log: Log, e: Entry): (r: Log)
    ensures |r| == |log| + 1
    ensures r[..|log|] == log
    ensures r[|log|] == RamAction(|log|, e)
  {
    log + [RamAction(|log|, e)]
  }

  /** Lookup by id in the log's primary index. */
  function Find(log: Log, id: int): (r: Option<RamAction>)
    ensures r.Some? <==> 0 <= id < |log|
    ensures r.Some? ==> r.value.id == id && r.value in log
  {
    if 0 <= id < |log| then Some(log[id]) else None
  }

  /** The balance the snapshot holds for an account, zero when it was never seen. */
  function Known(s: Snapshot, account: Account): int {
    if account in s then s[account] else 0
  }

  function Abs(x: int): nat {
    if x < 0 then -x else x
  }

  /** `calc_ram_delta`: given the account's current RAM limit, report how far it moved since the
      last observation and record the new value. */
  function CalcRamDelta(s: Snapshot, account: Account, newBalance: int): (r: (nat, Snapshot))
    ensures r.0 == 0 <==> newBalance == Known(s, account)
    ensures r.0 == newBalance - Known(s, account) || r.0 == Known(s, account) - newBalance
    ensures r.1.Keys == s.Keys + {account}
    ensures r.1[account] == newBalance
    ensures forall a :: a in s && a != account ==> r.1[a] == s[a]
  {
    var before := if account in s then s[account] else 0;
    (Abs(newBalance - before), s[account := newBalance])
  }
}

=== FILE: traces.dfy ===
/** Execution traces as the plugin sees them once rendered through the contract ABI: an action
    name, the action's data as named fields, and the inline actions it caused. */
module Traces {
  import opened Common
  import opened Assets
  import opened Ledger

  /** A rendered field value. A `quantity` field is shown already parsed; a string that does not
      parse as an asset is any value other than `Quantity`. */
  datatype Value = Str(s: string) | Int(i: int) | Quantity(q: Asset)

  type Fields = map<string, Value>

  datatype InlineTrace = InlineTrace(data: Fields)

  datatype ActionTrace = ActionTrace(name: string, data: Fields, inlines: seq<InlineTrace>)

  /** A transaction's id and its top-level actions; every action of it carries that one id. */
  datatype TransactionTrace = TransactionTrace(trxId: string, actions: seq<ActionTrace>)

  /** `v[key].get_string()`, which throws unless the field holds a string. */
  function GetString(d: Fields, key: string): (r: Result<string>)
    ensures r.Ok? <==> key in d && d[key].Str?
    ensures r.Ok? ==> d[key] == Str(r.value)
    ensures r.Err? ==> r.error == BadField(key)
  {
    if key in d && d[key].Str? then Ok(d[key].s) else Err(BadField(key))
  }

  /** `v[key].as_int64()` on a field the contract's ABI types as an integer. The conversions
      `as_int64` also applies to strings, booleans, doubles and null are not modelled. */
  function GetInt(d: Fields, key: string): (r: Result<int>)
    ensures r.Ok? <==> key in d && d[key].Int?
    ensures r.Ok? ==> d[key] == Int(r.value)
    ensures r.Err? ==> r.error == BadField(key)
  {
    if key in d && d[key].Int? then Ok(d[key].i) else Err(BadField(key))
  }

  /** `asset::from_string(v["quantity"].get_string())`. */
  function GetQuantity(d: Fields): (r: Result<Asset>)
    ensures r.Ok? <==> "quantity" in d && d["quantity"].Quantity?
    ensures r.Ok? ==> d["quantity"] == Quantity(r.value)
    ensures r.Err? ==> r.error == BadField("quantity")
  {
    if "quantity" in d && d["quantity"].Quantity? then Ok(d["quantity"].q) else Err(BadField("quantity"))
  }

  /** The field `key` of an inline action names `account`. */
  predicate Names(x: InlineTrace, key: string, account: Account) {
    key in x.data && x.data[key] == Str(account)
  }
}
